=== FILE: README.md ===
# Factory voice assistant page: a Dafny model of its query orchestrator

The page `app/page.tsx` of the voice factory front end lets an operator ask a
question by typing it or by recording it through the microphone. A recorded
question is first sent to the backend's speech-to-text endpoint. The transcript
is shown, and then sent to the answer endpoint, exactly like a typed question.
The answer body (text, the question as understood, an optional chart image and
an optional spoken answer) is then shown on the page.

This project models that core:

- `BaseUrl` (`base_url.dfy`): the backend base URL. An unset or empty
  configuration falls back to `http://localhost:8000`, and every trailing `/`
  is stripped.
- `Backend` (`backend.dfy`): the two requests the page sends (the answer
  request, which always asks for audio, and the speech-to-text upload with its
  defaults) and `decodeApiError`. It also gives the outcome a handler sees from
  a call: the parsed body, or the message of the error the call threw.
- `Normaliser` (`normaliser.dfy`): `applyBackendResponse` as a total function
  from any JSON value to what the page displays. Media are shown through data
  URLs in the form of RFC 2397, section 2 (`data:<mime>;base64,<payload>`),
  with the defaults `image/png` and `audio/wav`. A small data-URL reader shows
  that the URL built is well formed.
- `Js` (`js.dfy`): the JavaScript semantics the page relies on:
  - optional member access `x?.k` and `typeof … === "string"`;
  - truthiness and template-literal text;
  - `a || b` on strings;
  - `String.prototype.trim` over the ECMAScript whitespace and
    line-terminator characters.
- `Orchestrator` (`orchestrator.dfy`): each event handler as a function from
  the page state before it runs to the state after it, together with the
  sequence of outward calls it made (`Effect`). The events are the typed send,
  the microphone click (start or stop), `ondataavailable` and `onstop`.
  - The outcome of each awaited call is a parameter: microphone access,
    recorder construction, `recorder.start()`/`stop()`, transcription and
    answering.
  - The page state (`PageState`) holds the React state variables and the
    stream, recorder and chunk refs.
- `Page` (`page.dfy`): the component as a class `VoiceAssistant`. Its field
  `state` is updated one setter call at a time, in the order of the source. A
  ghost log `effects` records the calls made.
  - Each handler is a method proved to end in the state and to issue the calls
    that the `Orchestrator` function describes.
  - Each handler keeps the invariant `Valid()`: every buffered chunk is
    non-empty, and a recorder is only held together with its stream.

The properties proved include:

- the base URL never ends with `/`;
- decoding reports a string `detail` verbatim;
- media sources are exactly the RFC 2397 concatenation, with their defaults;
- both session starts are rejected while a query is in progress;
- the typed path asks only the trimmed, non-empty input;
- the voice path transcribes exactly the recorded chunks first, publishes
  the transcript as the question, and only then asks it;
- an empty transcript is never asked;
- the `finally` clause of `onstop` holds on every path;
- a whole voice session, from the first render to the answer shown, issues
  its calls in the expected order.

Two consequences of the code as written are proved as they stand. A
transcript made only of whitespace is not empty for the `!q` test
(app/page.tsx:173-177), so it is asked (`BlankTranscriptIsAsked`). A
configured URL made only of slashes normalises to the empty string
(`SlashesOnlyGiveEmptyBase`), so normalising is idempotent only for a
non-empty result (`BackendBaseUrlIdempotent`).

## Model

| member | source | states |
|---|---|---|
| BaseUrl.StripTrailingSlashes | app/page.tsx:32 | the result is a prefix of the input with no trailing `/`, and everything removed is `/` |
| BaseUrl.BackendBaseUrl | app/page.tsx:30-33 | an unset or empty value gives `http://localhost:8000`; otherwise the value minus its trailing slashes; never ends with `/` |
| BaseUrl.StripTrailingSlashesIdempotent | app/page.tsx:32 | stripping twice is stripping once |
| BaseUrl.StripIgnoresAddedSlashes | app/page.tsx:32 | any number of extra trailing slashes leads to the same base URL |
| BaseUrl.BackendBaseUrlIdempotent | app/page.tsx:30-33 | normalising a non-empty normalised URL again changes nothing |
| BaseUrl.SlashesOnlyGiveEmptyBase | app/page.tsx:31-32 | a configured value of slashes only yields the empty base URL |
| Js.TrimIsPadded | app/page.tsx:120 | `trim` returns the part of the input that sits between a run of leading and a run of trailing whitespace, and that part neither starts nor ends with whitespace |
| Js.TrimEmptyIffBlank | app/page.tsx:120-121 | the trimmed text is empty exactly when the input is all whitespace |
| Js.TrimmedEnds | app/page.tsx:120 | a trimmed string neither starts nor ends with whitespace |
| Js.Trim | app/page.tsx:120 | `String.prototype.trim`, as also applied to the question at line 64; its contract is given by `Js.TrimIsPadded` and `Js.TrimEmptyIffBlank` |
| Backend.AnswerRequest | app/page.tsx:96-101 | the answer request goes to `<base>/v1/voice-factory/answer`, carries the text unchanged and always asks for audio |
| Backend.RecordedBlob | app/page.tsx:171 | the blob holds exactly the chunks; its type is the recorder's type, or `audio/webm` when that is empty |
| Backend.SttRequest | app/page.tsx:106-116 | the upload goes to `<base>/v1/voice-factory/stt` with level `turn`, file name `question.webm` and the blob's chunks unchanged; the file type is the blob's type, or `audio/webm` when that is empty |
| Backend.DecodeApiError | app/page.tsx:50-58 | a string `detail` is returned verbatim; a JSON body without one is serialised; a body that is not JSON gives the raw text; it fails only when both reads fail |
| Backend.CallOutcome | app/page.tsx:102-103 | a call succeeds exactly when the response is ok and its body parses, giving that body; a network error becomes its message; a non-ok response throws the decoded error text, or the decoding's own error when decoding throws |
| Backend.DetailIsReportedVerbatim | app/page.tsx:53 | a failing call with body `{"detail": d}` throws exactly `d` |
| Backend.RawTextWhenNotJson | app/page.tsx:55-57 | a failing call whose body is not JSON throws what `r.text()` delivers |
| Backend.NonJsonErrorBodyIsLost | app/page.tsx:52-56 | when the body can be read only once, a failing call whose body is not JSON throws the message of the rejected `r.text()`, never the body |
| Normaliser.DataUri | app/page.tsx:70 | `data:<mime>;base64,<payload>` by concatenation, for the image here and the audio at line 78; its contract is `Normaliser.DataUriRoundTrip` |
| Normaliser.DataUriRoundTrip | app/page.tsx:70 | a data URL built from a media type without a comma reads back as that type and the payload |
| Normaliser.MimeOf | app/page.tsx:69 | the section's truthy `mime_type` as text, otherwise the fallback |
| Normaliser.MediaSrc | app/page.tsx:67-73 | a source exists exactly when the payload is truthy; a non-object section gives none; a string payload gives `data:<mime>;base64,<payload>` |
| Normaliser.Normalise | app/page.tsx:60-82 | the answer is a string `answer_text` or `""`; the question is a string `question_text` or none; the operator message is updated to the trimmed question exactly when that is non-empty; the two media sources come from their sections; a non-object body clears everything |
| Normaliser.VisualizationExample | app/page.tsx:67-70 | a PNG visualization with payload `Yg==` gives exactly `data:image/png;base64,Yg==` and no audio |
| Normaliser.MediaTypeDefault | app/page.tsx:69 | a section whose media type is missing or empty gets the fallback type |
| Orchestrator.ApplyResponse | app/page.tsx:60-82 | the five displayed answer fields show the normalised body, and nothing else in the page state changes |
| Orchestrator.QueryStartClears | app/page.tsx:123-128 | a session start clears the error, question, answer and both media sources, shows the given operator message, and changes nothing else |
| Orchestrator.TypedSend | app/page.tsx:119-141 | blank trimmed input or a query in progress changes nothing; otherwise exactly one answer request for the trimmed text. On failure the error is the message or `Request failed`, and the question and media fields are cleared. On success the answer is shown with the error cleared. Either way the page ends not processing with no status |
| Orchestrator.StartRecording | app/page.tsx:155-203 | the microphone is requested first; listening starts exactly when acquisition, construction and start all succeed; a construction failure keeps the acquired stream; a built recorder is held with empty chunks |
| Orchestrator.MicClick | app/page.tsx:143-217 | a click while processing changes nothing, and a click never sends a request. A start clears the answer fields and shows `Recording…`, and listens exactly when every step succeeds. Otherwise the start shows the error or `Microphone permission denied`; the status stays `Recording…` and the stream ref is left set. A stop stops the held recorder and shows a stop error or `Failed to stop recording` |
| Orchestrator.DataAvailable | app/page.tsx:162-164 | only a non-empty chunk is appended, and nothing else changes |
| Orchestrator.Catch | app/page.tsx:135-136 | a thrown non-empty message is shown as is, an empty one as the fallback; nothing else changes |
| Orchestrator.Answered | app/page.tsx:179-184 | the frame yield with the published state precedes the answer request, and the status becomes `Generating answer…`; the recording session is kept; a failure is rethrown with the display kept, a success shows the answer |
| Orchestrator.Transcript | app/page.tsx:173 | the transcript is the body's string `question_text`, or `""` when there is none |
| Orchestrator.Transcribed | app/page.tsx:172-184 | an empty transcript throws `STT returned empty text.` with no call and no question shown; otherwise the exact state with the transcript as question is published at the frame yield and then asked, with status `Generating answer…`; an empty transcript keeps the status. The session, the error and, whenever it throws, the answer and media fields are kept |
| Orchestrator.Transcription | app/page.tsx:170-185 | a transcription failure is rethrown with nothing changed; an empty transcript throws with no call and no question; a non-empty one publishes the state with it as question at the frame yield, then asks it with status `Generating answer…`; an empty one keeps the status; a failed answer keeps the question; a success shows the answer. The session and error are always kept, and the answer and media fields whenever it throws |
| Orchestrator.Released | app/page.tsx:189-197 | not processing, no status, stream, recorder and chunks released; display, error and listening untouched |
| Orchestrator.Finally | app/page.tsx:188-198 | the page ends not processing with no status; the held stream's tracks are stopped; the stream, recorder and chunks are released; display and error are untouched |
| Orchestrator.RecorderStop | app/page.tsx:166-199 | on every path: not processing, no status, refs released, listening untouched. The first call transcribes exactly the recorded chunks, and the held stream's tracks are stopped last |
| Orchestrator.TranscriptionFails | app/page.tsx:170-187 | a failed transcription shows its message (or `Audio request failed`), keeps the display, and makes no call but the track stop |
| Orchestrator.EmptyTranscriptIsNotAsked | app/page.tsx:173-177 | an empty transcript gives the error `STT returned empty text.`, no question, and no answer request; the answer and media fields keep their values |
| Orchestrator.TranscriptIsShownThenAsked | app/page.tsx:173-184 | a non-empty transcript is published as the question, at the frame yield, before it is asked. A failed answer keeps the question with the error and leaves the answer and media fields as they were; a successful one shows the answer |
| Orchestrator.NoStreamNoTrackStop | app/page.tsx:192-194 | without a held stream no track is stopped |
| Orchestrator.TypedQuestionIsTrimmed | app/page.tsx:120-121 | the typed path sends at most one request: the trimmed input, non-empty and without whitespace at either end |
| Orchestrator.VoiceQuestionIsTranscript | app/page.tsx:173-183 | every answer request of `onstop` asks the non-empty transcript |
| Orchestrator.FailedRecorderLeaksStream | app/page.tsx:156-159 | when construction fails after acquisition, the stream stays in the ref; the next start replaces it and no call stops its tracks |
| Orchestrator.BusyRejectsNewSessions | app/page.tsx:119-144 | while processing, neither the typed send nor a mic click does anything |
| Orchestrator.PermissionDenied | app/page.tsx:204-206 | denied microphone access shows the error or `Microphone permission denied`, does not listen, and calls no backend |
| Orchestrator.BlankTranscriptIsAsked | app/page.tsx:173-177 | a whitespace-only transcript is asked as is |
| Orchestrator.AnswerFailureKeepsQuestion | app/page.tsx:186-187 | an answer failure with detail `llm timeout` after transcript `Status?` shows exactly that error with the question kept |
| Orchestrator.VoiceHappyPath | app/page.tsx:143-217 | from the first render, a start, one non-empty recorded chunk, a stop and the stop event issue the calls in order (microphone, recorder start, recorder stop, transcription of exactly that chunk, frame yield, answer, track stop) and end idle with question and answer shown |
| Orchestrator.AnswerExample | app/page.tsx:60-65 | the normalised body of the happy-path answer |
| Page.VoiceAssistant.constructor | app/page.tsx:13-33 | the first render: initial state, empty log, base URL from the configuration |
| Page.VoiceAssistant.ApplyBackendResponse | app/page.tsx:60-82 | the setter sequence ends in `ApplyResponse` of the old state and makes no call |
| Page.VoiceAssistant.ClearForQuery | app/page.tsx:123-128 | the six resets before a query's first await |
| Page.VoiceAssistant.CatchError | app/page.tsx:135-136 | a `catch` clause ends in `Catch` of the old state |
| Page.VoiceAssistant.SendTypedQuestion | app/page.tsx:119-141 | ends in the state and issues the calls of `TypedSend`; keeps `Valid()` |
| Page.VoiceAssistant.TryStartRecording | app/page.tsx:155-203 | the start's `try` block ends as `StartRecording` says and returns what it threw |
| Page.VoiceAssistant.ClickMic | app/page.tsx:143-217 | ends in the state and issues the calls of `MicClick`; keeps `Valid()` |
| Page.VoiceAssistant.OnDataAvailable | app/page.tsx:162-164 | ends in `DataAvailable` of the old state; keeps every buffered chunk non-empty |
| Page.VoiceAssistant.AskTranscript | app/page.tsx:179-184 | yields a frame with the transcript published, then asks, as `Answered` says |
| Page.VoiceAssistant.HandleTranscript | app/page.tsx:172-184 | publishes the transcript and asks it, as `Transcribed` says |
| Page.VoiceAssistant.TryTranscription | app/page.tsx:170-185 | `onstop`'s `try` block after the upload, as `Transcription` says |
| Page.VoiceAssistant.ReleaseMicrophone | app/page.tsx:188-198 | `onstop`'s `finally`, as `Finally` says; establishes `Valid()` |
| Page.VoiceAssistant.OnRecorderStop | app/page.tsx:166-199 | ends in the state and issues the calls of `RecorderStop`; keeps `Valid()`, by which a held recorder means the last call stops the tracks |

## Left out

- Rendering (app/page.tsx:219-364): presentation only; the `typedQuestion` input box is a parameter of the typed send.
- The health check (app/page.tsx:35-48): a fetch with an unmount flag that never gates the pipeline.
- The audio autoplay effect (app/page.tsx:84-94): media element side effects.
- Browser APIs: `fetch`, `getUserMedia`, `recorder.start()`/`stop()` and `MediaStreamTrack.stop` are entries of the `Effect` log, and their outcomes are parameters. The outcome of the `MediaRecorder` constructor is the parameter `made` and is not logged. `Blob`, `File` and `FormData` are data built by `RecordedBlob` and `SttRequest`. Stopping the tracks is the single `StopTracks` entry, and any error it throws is swallowed, as in the source.
- The `requestAnimationFrame` yield (app/page.tsx:181): kept only as the `Paint` entry, which records the state published at that point. The promise resolves inside the frame callback, so the answer request may be sent before that frame is painted; the model claims only that the transcript is published before the request.
- `JSON.parse`, `JSON.stringify` and base64: parsing is an outcome parameter, `stringify` is an arbitrary function parameter, and payloads are never decoded. JSON numbers are carried as their JavaScript text, and floating point is not modelled.
- Reading `r.text()` after `r.json()` failed is an outcome parameter, which may succeed, so `Backend.RawTextWhenNotJson` holds for any such outcome.
- Backend.DecodeApiError: does not impose the Fetch read-once rule on its input. Under that rule (`Backend.BodyReadOnce`) the raw-text branch of app/page.tsx:55-57 never delivers a non-JSON body. The call then throws the `TypeError` of the rejected `r.text()` instead (`Backend.NonJsonErrorBodyIsLost`).
- React's asynchronous, batched `setState` and stale closures: each setter is a direct write to `state`, and the state variables and refs share one record.
- Concurrency between handlers: each handler runs to completion in one method call, with the outcomes of its awaits given up front. So another event cannot interleave while a query is in progress. The `Orchestrator` functions are still stated for every state, including one where `isProcessing` is true.
- The recorder's `mimeType` is a parameter of `onstop`; the browser's normalisation of a `Blob` type is not modelled.

=== FILE: backend.dfy ===
/** The page's two backend calls: the requests they send (answer and
    speech-to-text), how a non-success response becomes an error message
    (`decodeApiError`), and the outcome the calling handler sees: the parsed
    JSON body, or the message of the error the call threw. */
module Backend {
  import opened Wrappers
  import opened Js

  newtype byte = x: int | 0 <= x < 256

  /** One piece of recorded audio delivered by the recorder. */
  datatype Chunk = Chunk(bytes: seq<byte>)

  /** `new Blob(parts, { type })`. */
  datatype Blob = Blob(parts: seq<Chunk>, mimeType: string)

  const AnswerPath := "/v1/voice-factory/answer"
  const SttPath := "/v1/voice-factory/stt"
  const DefaultRecordingType := "audio/webm"

  datatype Request =
    /** POST of the JSON body `{ text, include_audio }` */
    | AnswerPost(url: string, text: string, includeAudio: bool)
    /** POST of a multipart form with `transcript_level` and one `audio` file */
    | SttPost(url: string, transcriptLevel: string, fileName: string, fileType: string, audio: seq<Chunk>)

  /** The request `sendTextToBackend` issues: always asks for synthesized audio. */
  function AnswerRequest(base: string, text: string): (r: Request)
    ensures r.AnswerPost? && r.includeAudio
    ensures r.text == text
    ensures r.url == base + "/v1/voice-factory/answer"
  {
    AnswerPost(base + AnswerPath, text, true)
  }

  /** The blob `onstop` builds from the chunks, typed by the recorder's MIME
      type or `audio/webm` when the recorder reports none. */
  function RecordedBlob(chunks: seq<Chunk>, recorderType: string): (b: Blob)
    ensures b.parts == chunks && b.mimeType != ""
    ensures recorderType != "" ==> b.mimeType == recorderType
    ensures recorderType == "" ==> b.mimeType == "audio/webm"
  {
    Blob(chunks, OrElse(recorderType, DefaultRecordingType))
  }

  /** The request `sendAudioToBackend` issues: the blob's bytes unchanged in
      a file `question.webm`, typed by the blob's type or `audio/webm`. */
  function SttRequest(base: string, audio: Blob): (r: Request)
    ensures r.SttPost? && r.transcriptLevel == "turn" && r.fileName == "question.webm"
    ensures r.audio == audio.parts
    ensures audio.mimeType != "" ==> r.fileType == audio.mimeType
    ensures audio.mimeType == "" ==> r.fileType == "audio/webm"
    ensures r.url == base + "/v1/voice-factory/stt"
  {
    SttPost(base + SttPath, "turn", "question.webm", OrElse(audio.mimeType, DefaultRecordingType), audio.parts)
  }

  /** What `fetch` delivers: a rejection, or a response with its status
      flag, the outcome of `r.json()`, and the outcome of `r.text()` when
      that is read after `r.json()` failed. */
  datatype HttpResponse =
    | NetworkFailure(message: string)
    | Received(ok: bool, json: Result<Json, string>, text: Result<string, string>)

  /** The Fetch standard's rule that a body is read at most once: once
      `r.json()` has consumed a body it could not parse, `r.text()` rejects
      (with a `TypeError`). Only a response without a body, which `r.json()`
      cannot parse and `r.text()` reads as `""`, escapes it. */
  predicate BodyReadOnce(resp: HttpResponse)
  {
    resp.Received? && resp.json.Failure? ==> resp.text.Failure?
  }

  /** `decodeApiError`: a string `detail` of a JSON body verbatim, else the
      serialised JSON body, else the raw text. A `Failure` is an error the
      decoding itself threw. `stringify` stands for `JSON.stringify`. */
  function DecodeApiError(json: Result<Json, string>, text: Result<string, string>,
                          stringify: Json -> string): (r: Result<string, string>)
    ensures json.Success? && StringMember(Some(json.value), "detail").Some? ==>
      r == Success(StringMember(Some(json.value), "detail").value)
    ensures json.Success? && StringMember(Some(json.value), "detail").None? ==>
      r == Success(stringify(json.value))
    ensures json.Failure? ==> r == text
    ensures r.Failure? ==> json.Failure? && text.Failure?
  {
    match json
    case Success(data) =>
      (match StringMember(Some(data), "detail")
       case Some(detail) => Success(detail)
       case None => Success(stringify(data)))
    case Failure(_) => text
  }

  /** The outcome of `sendTextToBackend`/`sendAudioToBackend` as the caller
      sees it: the parsed body of a success response, or the message of the
      error thrown (a network failure, a decoded error body, or a body that
      does not parse). */
  function CallOutcome(resp: HttpResponse, stringify: Json -> string): (r: Result<Json, string>)
    ensures r.Success? <==> resp.Received? && resp.ok && resp.json.Success?
    ensures r.Success? ==> r.value == resp.json.value
    ensures resp.NetworkFailure? ==> r == Failure(resp.message)
    ensures resp.Received? && !resp.ok && DecodeApiError(resp.json, resp.text, stringify).Success? ==>
      r == Failure(DecodeApiError(resp.json, resp.text, stringify).value)
    ensures resp.Received? && !resp.ok && DecodeApiError(resp.json, resp.text, stringify).Failure? ==>
      r == Failure(DecodeApiError(resp.json, resp.text, stringify).error)
  {
    match resp
    case NetworkFailure(message) => Failure(message)
    case Received(ok, json, text) =>
      if !ok then
        (match DecodeApiError(json, text, stringify)
         case Success(message) => Failure(message)   // throw new Error(message)
         case Failure(message) => Failure(message))  // the decoding's own error propagates
      else
        json
  }

  /** A failing call whose body is `{"detail": d}` reports exactly `d`. */
  lemma DetailIsReportedVerbatim(d: string, text: Result<string, string>, stringify: Json -> string)
    ensures CallOutcome(Received(false, Success(JObject(map["detail" := JString(d)])), text), stringify)
      == Failure(d)
  {
  }

  /** A failing call whose body is not JSON reports what `r.text()` gives:
      the raw text where that is still readable. */
  lemma RawTextWhenNotJson(syntaxError: string, body: string, stringify: Json -> string)
    ensures CallOutcome(Received(false, Failure(syntaxError), Success(body)), stringify) == Failure(body)
  {
  }

  /** Under the read-once rule a failing call whose body is not JSON never
      reports that body: the error it throws carries the message of the
      rejected `r.text()`. */
  lemma {:induction false} NonJsonErrorBodyIsLost(resp: HttpResponse, stringify: Json -> string)
    requires BodyReadOnce(resp)
    requires resp.Received? && !resp.ok && resp.json.Failure?
    ensures resp.text.Failure?
    ensures CallOutcome(resp, stringify) == Failure(resp.text.error)
  {
    assert DecodeApiError(resp.json, resp.text, stringify) == resp.text;
  }
}

=== FILE: base_url.dfy ===
/** The backend base URL the page talks to: the configured value, or the
    local development server when none is configured, with every trailing
    slash removed so that paths can be appended with a single `/`. */
module BaseUrl {
  import opened Wrappers

  const DefaultBackendUrl := "http://localhost:8000"

  /** `s.replace(/\/+$/, "")`: the maximal run of trailing slashes removed. */
  function StripTrailingSlashes(s: string): (r: string)
    ensures |r| <= |s| && r == s[..|r|]
    ensures r == [] || r[|r| - 1] != '/'
    ensures forall k :: |r| <= k < |s| ==> s[k] == '/'
  {
    if |s| > 0 && s[|s| - 1] == '/' then StripTrailingSlashes(s[..|s| - 1]) else s
  }

  /** The base URL from the raw environment value: an unset or empty value
      falls back to the default, and trailing slashes are stripped. */
  function BackendBaseUrl(raw: Option<string>): (r: string)
    ensures r == [] || r[|r| - 1] != '/'
    ensures raw == None || raw == Some("") ==> r == DefaultBackendUrl
    ensures raw.Some? && raw.value != "" ==>
      |r| <= |raw.value| && r == raw.value[..|r|] && forall k :: |r| <= k < |raw.value| ==> raw.value[k] == '/'
  {
    var chosen := if raw.Some? && raw.value != "" then raw.value else DefaultBackendUrl;
    assert DefaultBackendUrl[|DefaultBackendUrl| - 1] != '/';
    StripTrailingSlashes(chosen)
  }

  /** Normalising an already normalised URL changes nothing. */
  lemma {:induction false} StripTrailingSlashesIdempotent(s: string)
    ensures StripTrailingSlashes(StripTrailingSlashes(s)) == StripTrailingSlashes(s)
  {
  }

  /** Appending slashes to a URL does not change its normal form. */
  lemma {:induction false} StripIgnoresAddedSlashes(s: string, n: nat)
    ensures StripTrailingSlashes(s + seq(n, _ => '/')) == StripTrailingSlashes(s)
  {
    if n > 0 {
      var t := s + seq(n, _ => '/');
      assert t[..|t| - 1] == s + seq(n - 1, _ => '/');
      StripIgnoresAddedSlashes(s, n - 1);
    } else {
      assert s + seq(n, _ => '/') == s;
    }
  }

  /** Normalising the base URL again changes nothing, unless the configured
      value was made of slashes only: it then normalises to the empty
      string, which a second pass replaces by the default. */
  lemma {:induction false} BackendBaseUrlIdempotent(raw: Option<string>)
    ensures var r := BackendBaseUrl(raw);
      r != "" ==> BackendBaseUrl(Some(r)) == r
  {
    var r := BackendBaseUrl(raw);
    if r != "" {
      assert r[|r| - 1] != '/';
    }
  }

  /** A configured value of slashes only gives the empty base URL, so the
      backend paths resolve against the page's own origin. */
  lemma SlashesOnlyGiveEmptyBase(n: nat)
    requires n > 0
    ensures BackendBaseUrl(Some(seq(n, _ => '/'))) == ""
  {
    StripIgnoresAddedSlashes("", n);
    assert "" + seq(n, _ => '/') == seq(n, _ => '/');
  }
}

=== FILE: js.dfy ===
/** The JavaScript values the page receives from the backend (parsed JSON)
    and the few coercions it applies to them: optional member access `v?.k`,
    `typeof … === "string"`, truthiness, template-literal text, `a || b` on
    strings and `String.prototype.trim`. */
module Js {
  import opened Wrappers

  /** A parsed JSON value. A number is carried as the text JavaScript prints
      for it (`String(n)`), which is all the page ever does with one; that
      text must be the canonical one (`"0"`, never `"0.0"` or `"-0"`), since
      truthiness is read off it. */
  datatype Json =
    | JNull
    | JBool(b: bool)
    | JNumber(text: string)
    | JString(s: string)
    | JArray(items: seq<Json>)
    | JObject(members: map<string, Json>)

  /** `v?.key`: absent when `v` is absent, is not an object, or lacks `key`. */
  function Member(v: Option<Json>, key: string): Option<Json>
  {
    if v.Some? && v.value.JObject? && key in v.value.members
    then Some(v.value.members[key]) else None
  }

  /** `typeof v?.key === "string" ? v.key : <absent>` */
  function StringMember(v: Option<Json>, key: string): Option<string>
  {
    match Member(v, key)
    case Some(JString(s)) => Some(s)
    case _ => None
  }

  /** JavaScript truthiness of a possibly-undefined value. */
  predicate Truthy(v: Option<Json>)
  {
    match v
    case None => false
    case Some(JNull) => false
    case Some(JBool(b)) => b
    case Some(JNumber(t)) => t != "0"
    case Some(JString(s)) => s != ""
    case Some(JArray(_)) => true
    case Some(JObject(_)) => true
  }

  /** The text a template literal `${j}` produces for a JSON value. */
  function ToText(j: Json): string
  {
    match j
    case JNull => "null"
    case JBool(b) => if b then "true" else "false"
    case JNumber(t) => t
    case JString(s) => s
    case JArray(items) =>
      // Array.prototype.join: null elements print as the empty string
      JoinComma(seq(|items|, i requires 0 <= i < |items| =>
        if items[i].JNull? then "" else ToText(items[i])))
    case JObject(_) => "[object Object]"
  }

  function JoinComma(parts: seq<string>): string
  {
    if |parts| == 0 then ""
    else if |parts| == 1 then parts[0]
    else parts[0] + "," + JoinComma(parts[1..])
  }

  /** `a || b` where `a` is a string: `b` replaces only the empty string. */
  function OrElse(a: string, b: string): (r: string)
    ensures r == a || r == b
    ensures a != "" ==> r == a
    ensures b != "" ==> r != ""
  {
    if a == "" then b else a
  }

  /** The characters `String.prototype.trim` removes: ECMAScript WhiteSpace
      and LineTerminator code points. */
  predicate IsWhitespace(c: char)
  {
    c == '\t' || c == '\n' || c == '\U{B}' || c == '\U{C}' || c == '\r' ||
    c == ' ' || c == '\U{A0}' || c == '\U{1680}' ||
    ('\U{2000}' <= c <= '\U{200A}') ||
    c == '\U{2028}' || c == '\U{2029}' || c == '\U{202F}' || c == '\U{205F}' ||
    c == '\U{3000}' || c == '\U{FEFF}'
  }

  /** Leading whitespace removed: `s` is the removed whitespace followed by `r`. */
  function TrimStart(s: string): (r: string)
    ensures |r| <= |s| && r == s[|s| - |r|..]
    ensures r == [] || !IsWhitespace(r[0])
    ensures forall k :: 0 <= k < |s| - |r| ==> IsWhitespace(s[k])
  {
    if |s| > 0 && IsWhitespace(s[0]) then TrimStart(s[1..]) else s
  }

  /** Trailing whitespace removed: `s` is `r` followed by the removed whitespace. */
  function TrimEnd(s: string): (r: string)
    ensures |r| <= |s| && r == s[..|r|]
    ensures r == [] || !IsWhitespace(r[|r| - 1])
    ensures forall k :: |r| <= k < |s| ==> IsWhitespace(s[k])
  {
    if |s| > 0 && IsWhitespace(s[|s| - 1]) then TrimEnd(s[..|s| - 1]) else s
  }

  /** `r` sits at offset `i` of `s`, with only whitespace before and after it. */
  ghost predicate PaddedBy(s: string, r: string, i: int)
  {
    0 <= i <= |s| - |r| && r == s[i..i + |r|] &&
    (forall k :: 0 <= k < i ==> IsWhitespace(s[k])) &&
    (forall k :: i + |r| <= k < |s| ==> IsWhitespace(s[k]))
  }

  /** `s.trim()`: `s` without its leading and trailing whitespace. */
  function Trim(s: string): string
  {
    TrimEnd(TrimStart(s))
  }

  /** A trimmed string neither starts nor ends with whitespace. */
  lemma TrimmedEnds(s: string)
    ensures var r := Trim(s);
      r == [] || (!IsWhitespace(r[0]) && !IsWhitespace(r[|r| - 1]))
  {
    var t := TrimStart(s);
    var r := TrimEnd(t);
    if r != [] {
      assert r[0] == t[0];
    }
  }

  /** The result of `Trim(s)` is the part of `s` between its maximal leading
      and trailing runs of whitespace: what lies around it is whitespace, and
      it neither starts nor ends with whitespace. */
  lemma TrimIsPadded(s: string)
    ensures exists i :: PaddedBy(s, Trim(s), i)
    ensures Trim(s) == [] || (!IsWhitespace(Trim(s)[0]) && !IsWhitespace(Trim(s)[|Trim(s)| - 1]))
  {
    TrimIsBetweenRuns(s);
    TrimmedEnds(s);
  }

  /** `Trim(s)` sits between a leading and a trailing run of whitespace. */
  lemma {:induction false} TrimIsBetweenRuns(s: string)
    ensures exists i :: PaddedBy(s, Trim(s), i)
  {
    var t := TrimStart(s);
    var r := TrimEnd(t);
    var i := |s| - |t|;
    assert r == s[i..i + |r|];
    WhitespaceShifts(s, t, i, |r|);
    assert PaddedBy(s, Trim(s), i);
  }

  /** Whitespace at the end of the suffix `t == s[i..]` is whitespace at the
      end of `s`. */
  lemma WhitespaceShifts(s: string, t: string, i: nat, from: nat)
    requires i <= |s| && t == s[i..]
    requires forall k :: from <= k < |t| ==> IsWhitespace(t[k])
    ensures forall k :: i + from <= k < |s| ==> IsWhitespace(s[k])
  {
    forall k | i + from <= k < |s| ensures IsWhitespace(s[k]) {
      assert s[k] == t[k - i];
    }
  }

  /** `Trim(s)` is empty exactly when `s` is all whitespace. */
  lemma {:induction false} TrimEmptyIffBlank(s: string)
    ensures Trim(s) == [] <==> forall k :: 0 <= k < |s| ==> IsWhitespace(s[k])
  {
    var t := TrimStart(s);
    var i := |s| - |t|;
    assert t == s[i..];
    if Trim(s) == [] {
      forall k | 0 <= k < |s| ensures IsWhitespace(s[k]) {
        if k >= i {
          assert s[k] == t[k - i];
        }
      }
    }
  }

  /** A string without whitespace at either end is its own trim. */
  lemma TrimOfTrimmed(s: string)
    requires s != [] && !IsWhitespace(s[0]) && !IsWhitespace(s[|s| - 1])
    ensures Trim(s) == s
  {
  }
}

=== FILE: normaliser.dfy ===
/** `applyBackendResponse`, as a total function from the answer service's
    JSON body to the values the page displays. Media arrive base64-encoded
    and are shown through data URLs (RFC 2397, section 2:
    `data:[<mediatype>][;base64],<data>`), built by plain concatenation. */
module Normaliser {
  import opened Wrappers
  import opened Js

  const DefaultImageType := "image/png"
  const DefaultAudioType := "audio/wav"

  /** The data URL of a base64 payload of the given media type. */
  function DataUri(mime: string, payload: string): string
  {
    "data:" + mime + ";base64," + payload
  }

  /** The index of the first `c` in `s`. */
  function IndexOf(s: string, c: char): (r: Option<nat>)
    ensures r.Some? ==> r.value < |s| && s[r.value] == c && c !in s[..r.value]
    ensures r.None? ==> c !in s
  {
    if |s| == 0 then None
    else if s[0] == c then Some(0)
    else match IndexOf(s[1..], c)
      case None => None
      case Some(i) =>
        assert s[..i + 1] == [s[0]] + s[1..][..i];
        Some(i + 1)
  }

  /** Reads a base64 data URL back into its media type and payload, the way
      a consumer of RFC 2397 URLs does: the header ends at the first comma. */
  function ParseDataUri(u: string): Option<(string, string)>
  {
    if |u| < 5 || u[..5] != "data:" then None
    else
      var rest := u[5..];
      match IndexOf(rest, ',')
      case None => None
      case Some(i) =>
        var header := rest[..i];
        if |header| >= 7 && header[|header| - 7..] == ";base64"
        then Some((header[..|header| - 7], rest[i + 1..]))
        else None
  }

  /** A data URL built from a media type without a comma reads back as that
      media type and the payload, unchanged. */
  lemma {:induction false} DataUriRoundTrip(mime: string, payload: string)
    requires ',' !in mime
    ensures ParseDataUri(DataUri(mime, payload)) == Some((mime, payload))
  {
    var u := DataUri(mime, payload);
    var rest := u[5..];
    assert rest == mime + ";base64," + payload;
    var i := |mime| + 7;
    assert rest[..i] == mime + ";base64";
    assert rest[i] == ',';
    assert ',' !in ";base64";
    assert ',' !in rest[..i] by {
      forall k | 0 <= k < i ensures rest[..i][k] != ',' {
        if k < |mime| {
          assert rest[..i][k] == mime[k];
        } else {
          assert rest[..i][k] == ";base64"[k - |mime|];
        }
      }
    }
    assert IndexOf(rest, ',') == Some(i);
    assert rest[i + 1..] == payload;
  }

  /** `section?.mime_type || fallback`, as the text the template prints. */
  function MimeOf(section: Option<Json>, fallback: string): (m: string)
    ensures Truthy(Member(section, "mime_type")) ==> m == ToText(Member(section, "mime_type").value)
    ensures StringMember(section, "mime_type").Some? && StringMember(section, "mime_type").value != "" ==>
      m == StringMember(section, "mime_type").value
    ensures !Truthy(Member(section, "mime_type")) ==> m == fallback
  {
    var mime := Member(section, "mime_type");
    if Truthy(mime) then ToText(mime.value) else fallback
  }

  /** The data URL for one media section, present exactly when the section's
      payload member is truthy; the media type falls back to `fallback` when
      the section names none or an empty one. */
  function MediaSrc(section: Option<Json>, payloadKey: string, fallback: string): (r: Option<string>)
    ensures r.Some? <==> Truthy(Member(section, payloadKey))
    ensures section.None? || !section.value.JObject? ==> r.None?
    ensures StringMember(section, payloadKey).Some? && StringMember(section, payloadKey).value != "" ==>
      r == Some(DataUri(MimeOf(section, fallback), StringMember(section, payloadKey).value))
  {
    var payload := Member(section, payloadKey);
    if Truthy(payload) then Some(DataUri(MimeOf(section, fallback), ToText(payload.value))) else None
  }

  /** What one answer body changes on the page. `operatorMessage` is the
      update to the operator's message line, absent when it stays as it was. */
  datatype Normalised = Normalised(
    answerText: string,
    questionText: Option<string>,
    operatorMessage: Option<string>,
    visualizationSrc: Option<string>,
    audioSrc: Option<string>)

  /** The pure part of `applyBackendResponse`. Total: every JSON value,
      `null` and `{}` included, yields a result. */
  function Normalise(data: Json): (n: Normalised)
    ensures n.answerText == (if StringMember(Some(data), "answer_text").Some?
                             then StringMember(Some(data), "answer_text").value else "")
    ensures n.questionText == StringMember(Some(data), "question_text")
    ensures n.operatorMessage.Some? <==> n.questionText.Some? && Trim(n.questionText.value) != ""
    ensures n.operatorMessage.Some? ==> n.operatorMessage.value == Trim(n.questionText.value)
    ensures n.visualizationSrc == MediaSrc(Member(Some(data), "visualization"), "image_base64", DefaultImageType)
    ensures n.audioSrc == MediaSrc(Member(Some(data), "audio"), "audio_base64", DefaultAudioType)
    ensures !data.JObject? ==> n == Normalised("", None, None, None, None)
  {
    var question := StringMember(Some(data), "question_text");
    Normalised(
      answerText := match StringMember(Some(data), "answer_text") { case Some(a) => a case None => "" },
      questionText := question,
      operatorMessage := if question.Some? && Trim(question.value) != "" then Some(Trim(question.value)) else None,
      visualizationSrc := MediaSrc(Member(Some(data), "visualization"), "image_base64", DefaultImageType),
      audioSrc := MediaSrc(Member(Some(data), "audio"), "audio_base64", DefaultAudioType))
  }

  /** The image of `{answer_text: "X", visualization: {image_base64: "Yg==",
      mime_type: "image/png"}}` is exactly `data:image/png;base64,Yg==`. */
  lemma VisualizationExample()
    ensures
      var viz := JObject(map["image_base64" := JString("Yg=="), "mime_type" := JString("image/png")]);
      var n := Normalise(JObject(map["answer_text" := JString("X"), "visualization" := viz]));
      n.answerText == "X" && n.audioSrc == None &&
      n.visualizationSrc == Some("data:image/png;base64,Yg==")
  {
    var viz := JObject(map["image_base64" := JString("Yg=="), "mime_type" := JString("image/png")]);
    var data := JObject(map["answer_text" := JString("X"), "visualization" := viz]);
    assert Member(Some(data), "visualization") == Some(viz);
    assert Member(Some(data), "audio") == None;
    assert Member(Some(data), "question_text") == None;
    PngSection(viz);
  }

  /** The visualization section of the example above. */
  lemma PngSection(viz: Json)
    requires viz == JObject(map["image_base64" := JString("Yg=="), "mime_type" := JString("image/png")])
    ensures MediaSrc(Some(viz), "image_base64", DefaultImageType) == Some("data:image/png;base64,Yg==")
  {
    assert Member(Some(viz), "image_base64") == Some(JString("Yg=="));
    assert MimeOf(Some(viz), DefaultImageType) == "image/png";
    assert ToText(JString("Yg==")) == "Yg==";
    assert DataUri("image/png", "Yg==") == "data:image/png;base64,Yg==";
  }

  /** A section whose media type is missing or empty gets the fallback type
      (`image/png` for the visualization, `audio/wav` for the audio). */
  lemma MediaTypeDefault(payloadKey: string, payload: string, fallback: string, emptyMime: bool)
    requires payload != "" && payloadKey != "mime_type"
    ensures
      var section := if emptyMime
        then JObject(map[payloadKey := JString(payload), "mime_type" := JString("")])
        else JObject(map[payloadKey := JString(payload)]);
      MediaSrc(Some(section), payloadKey, fallback) == Some("data:" + fallback + ";base64," + payload)
  {
    var section := if emptyMime
      then JObject(map[payloadKey := JString(payload), "mime_type" := JString("")])
      else JObject(map[payloadKey := JString(payload)]);
    assert StringMember(Some(section), payloadKey) == Some(payload);
    assert !Truthy(Member(Some(section), "mime_type"));
  }
}

=== FILE: orchestrator.dfy ===
/** The page's query orchestrator: the typed-question handler, the
    microphone button, and the recorder's `ondataavailable` and `onstop`
    handlers that run transcription and then answering.

    Each handler is modelled by a function from the page state before the
    handler runs (a `PageState`) to the state after it and the calls it issued
    to the outside world (a `Transition`); the class `VoiceAssistant` in module `Page`
    runs the same handlers as step-by-step field updates and is proved to
    agree with them. What the awaited calls return (microphone access,
    recorder construction, each backend call) is a parameter. */
module Orchestrator {
  import opened Wrappers
  import opened Js
  import opened Backend
  import opened Normaliser
  import BaseUrl

  type StreamId = nat
  type RecorderId = nat

  const RecordingStatus := "Recording\U{2026}"
  const TranscribingStatus := "Audio received. Transcribing\U{2026}"
  const GeneratingStatus := "Generating answer\U{2026}"
  const EmptyTranscriptMessage := "STT returned empty text."
  const RequestFailed := "Request failed"
  const AudioRequestFailed := "Audio request failed"
  const MicrophoneDenied := "Microphone permission denied"
  const StopFailed := "Failed to stop recording"

  /** The page's state: its React state variables and the refs to the open
      media stream, the recorder and the recorded chunks. */
  datatype PageState = PageState(
    isListening: bool,
    isProcessing: bool,
    operatorMessage: string,
    recognizedQuestion: Option<string>,
    aiResponse: string,
    errorMessage: Option<string>,
    visualizationSrc: Option<string>,
    audioSrc: Option<string>,
    pipelineStatus: Option<string>,
    stream: Option<StreamId>,
    recorder: Option<RecorderId>,
    chunks: seq<Chunk>)

  /** A call the page makes to the browser or the backend. `Paint` marks
      the animation-frame yield and records the state published at that
      point; the frame's callback resumes the handler before that frame is
      painted, so the next call may go out before the user sees it. */
  datatype Effect =
    | RequestMicrophone
    | StartRecorder(recorder: RecorderId)
    | StopRecorder(recorder: RecorderId)
    | Send(request: Request)
    | Paint(shown: PageState)
    | StopTracks(stream: StreamId)

  datatype Transition = Transition(after: PageState, effects: seq<Effect>)

  predicate IsAnswerRequest(e: Effect)
  {
    e.Send? && e.request.AnswerPost?
  }

  predicate NoRequest(effects: seq<Effect>)
  {
    forall i :: 0 <= i < |effects| ==> !effects[i].Send?
  }

  predicate NoAnswerRequest(effects: seq<Effect>)
  {
    forall i :: 0 <= i < |effects| ==> !IsAnswerRequest(effects[i])
  }

  predicate NoTrackStop(effects: seq<Effect>)
  {
    forall i :: 0 <= i < |effects| ==> !effects[i].StopTracks?
  }

  /** The state when the page is first rendered. */
  function Initial(): PageState
  {
    PageState(false, false, "", None, "", None, None, None, None, None, None, [])
  }

  /** The displayed answer fields of `v` are those of `n`; the operator's
      message is `n`'s update, or `prior` when `n` has none. */
  predicate Shows(v: PageState, n: Normalised, prior: string)
  {
    v.aiResponse == n.answerText && v.recognizedQuestion == n.questionText &&
    v.visualizationSrc == n.visualizationSrc && v.audioSrc == n.audioSrc &&
    v.operatorMessage == (if n.operatorMessage.Some? then n.operatorMessage.value else prior)
  }

  /** `v` and `w` agree on everything but the five displayed answer fields. */
  predicate SameButDisplay(v: PageState, w: PageState)
  {
    v.(operatorMessage := w.operatorMessage, recognizedQuestion := w.recognizedQuestion,
       aiResponse := w.aiResponse, visualizationSrc := w.visualizationSrc,
       audioSrc := w.audioSrc) == w
  }

  /** `v` and `w` agree on the five displayed answer fields. */
  predicate SameDisplay(v: PageState, w: PageState)
  {
    v.operatorMessage == w.operatorMessage && v.recognizedQuestion == w.recognizedQuestion &&
    v.aiResponse == w.aiResponse && v.visualizationSrc == w.visualizationSrc &&
    v.audioSrc == w.audioSrc
  }

  /** `v` and `w` agree on the answer text and the two media sources. */
  predicate SameAnswer(v: PageState, w: PageState)
  {
    v.aiResponse == w.aiResponse && v.visualizationSrc == w.visualizationSrc && v.audioSrc == w.audioSrc
  }

  /** `v` and `w` agree on the recording session: the listening flag, the
      stream, the recorder and the recorded chunks. */
  predicate SameSession(v: PageState, w: PageState)
  {
    v.isListening == w.isListening && v.stream == w.stream && v.recorder == w.recorder && v.chunks == w.chunks
  }

  /** `applyBackendResponse(data)`: the answer fields show the normalised
      body and nothing else changes. */
  function ApplyResponse(v: PageState, data: Json): (r: PageState)
    ensures Shows(r, Normalise(data), v.operatorMessage)
    ensures SameButDisplay(v, r)
  {
    var n := Normalise(data);
    v.(aiResponse := n.answerText,
       recognizedQuestion := n.questionText,
       operatorMessage := if n.operatorMessage.Some? then n.operatorMessage.value else v.operatorMessage,
       visualizationSrc := n.visualizationSrc,
       audioSrc := n.audioSrc)
  }

  /** The reset both session starts perform before their first await. */
  function ClearedForQuery(v: PageState, operatorMessage: string): PageState
  {
    v.(errorMessage := None, operatorMessage := operatorMessage, recognizedQuestion := None,
       aiResponse := "", visualizationSrc := None, audioSrc := None)
  }

  /** A session start clears the error, the question, the answer and both
      media sources, shows `operatorMessage`, and leaves the flags, the
      status and the refs alone. */
  lemma QueryStartClears(v: PageState, operatorMessage: string)
    ensures var r := ClearedForQuery(v, operatorMessage);
      && r.errorMessage == None && r.operatorMessage == operatorMessage && r.recognizedQuestion == None
      && r.aiResponse == "" && r.visualizationSrc == None && r.audioSrc == None
      && SameButDisplay(v.(errorMessage := None), r)
  {
  }

  /** `handleSendTypedQuestion` with the typed text `typed` and the outcome
      `reply` of the answer request. Blank input, or a query in progress,
      leaves everything as it was; the guard does not look at `isListening`. */
  function TypedSend(v: PageState, base: string, typed: string, reply: Result<Json, string>): (r: Transition)
    ensures Trim(typed) == "" || v.isProcessing ==> r == Transition(v, [])
    ensures Trim(typed) != "" && !v.isProcessing ==>
      && r.effects == [Send(AnswerRequest(base, Trim(typed)))]
      && !r.after.isProcessing && r.after.pipelineStatus == None
      && r.after.isListening == v.isListening && r.after.stream == v.stream
      && r.after.recorder == v.recorder && r.after.chunks == v.chunks
    ensures Trim(typed) != "" && !v.isProcessing && reply.Failure? ==>
      && r.after.errorMessage == Some(OrElse(reply.error, RequestFailed))
      && r.after.operatorMessage == Trim(typed) && r.after.recognizedQuestion == None
      && r.after.aiResponse == "" && r.after.visualizationSrc == None && r.after.audioSrc == None
    ensures Trim(typed) != "" && !v.isProcessing && reply.Success? ==>
      r.after.errorMessage == None && Shows(r.after, Normalise(reply.value), Trim(typed))
  {
    var q := Trim(typed);
    if q == "" || v.isProcessing then Transition(v, [])
    else
      var busy := ClearedForQuery(v, q).(isProcessing := true, pipelineStatus := Some(GeneratingStatus));
      var request := [Send(AnswerRequest(base, q))];
      var tried := match reply
        case Success(data) => Attempt(ApplyResponse(busy, data), request, None)
        case Failure(message) => Attempt(busy, request, Some(message));
      var caught := Catch(tried.after, tried.thrown, RequestFailed);
      Transition(caught.(isProcessing := false, pipelineStatus := None), tried.effects)
  }

  /** The `try` block of a recording start: acquire the microphone, build
      the recorder, reset the chunks, and start it. */
  function StartRecording(v: PageState, device: Result<StreamId, string>, made: Result<RecorderId, string>,
                          startError: Option<string>): (r: Attempt)
    ensures r.effects != [] && r.effects[0] == RequestMicrophone && NoRequest(r.effects) && NoTrackStop(r.effects)
    ensures r.thrown.None? <==> device.Success? && made.Success? && startError.None?
    ensures r.after.isListening <==> r.thrown.None?
    ensures device.Failure? ==> r == Attempt(v, [RequestMicrophone], Some(device.error))
    ensures device.Success? && made.Failure? ==>
      r == Attempt(v.(stream := Some(device.value)), [RequestMicrophone], Some(made.error))
    ensures device.Success? && made.Success? ==>
      && r.effects == [RequestMicrophone, StartRecorder(made.value)]
      && r.after.(isListening := v.isListening) ==
           v.(stream := Some(device.value), recorder := Some(made.value), chunks := [])
      && r.thrown == startError
    requires !v.isListening
  {
    match device
    case Failure(m) => Attempt(v, [RequestMicrophone], Some(m))
    case Success(stream) =>
      var acquired := v.(stream := Some(stream));
      match made
      case Failure(m) => Attempt(acquired, [RequestMicrophone], Some(m))
      case Success(rec) =>
        var ready := acquired.(chunks := [], recorder := Some(rec));
        var effects := [RequestMicrophone, StartRecorder(rec)];
        if startError.Some? then Attempt(ready, effects, startError)
        else Attempt(ready.(isListening := true), effects, None)
  }

  /** `handleMicClick` with the outcomes of `getUserMedia` (`device`), of
      `new MediaRecorder` (`made`), of `recorder.start()` (`startError`) and
      of `recorder.stop()` (`stopError`); only the branch taken uses its
      outcomes. */
  function MicClick(v: PageState, device: Result<StreamId, string>, made: Result<RecorderId, string>,
                    startError: Option<string>, stopError: Option<string>): (r: Transition)
    ensures v.isProcessing ==> r == Transition(v, [])
    ensures NoRequest(r.effects) && r.after.isProcessing == v.isProcessing
    // starting
    ensures !v.isProcessing && !v.isListening ==>
      && r.effects != [] && r.effects[0] == RequestMicrophone
      && r.after.operatorMessage == "" && r.after.recognizedQuestion == None && r.after.aiResponse == ""
      && r.after.visualizationSrc == None && r.after.audioSrc == None
      && r.after.pipelineStatus == Some(RecordingStatus)
      && (r.after.isListening <==> device.Success? && made.Success? && startError.None?)
      && (r.after.errorMessage == None <==> device.Success? && made.Success? && startError.None?)
    ensures !v.isProcessing && !v.isListening && device.Failure? ==>
      && r.effects == [RequestMicrophone]
      && r.after.errorMessage == Some(OrElse(device.error, MicrophoneDenied))
      && r.after.stream == v.stream && r.after.recorder == v.recorder && r.after.chunks == v.chunks
    ensures !v.isProcessing && !v.isListening && device.Success? && made.Failure? ==>
      && r.effects == [RequestMicrophone] && NoTrackStop(r.effects)
      && r.after.errorMessage == Some(OrElse(made.error, MicrophoneDenied))
      && r.after.stream == Some(device.value) && r.after.recorder == v.recorder && r.after.chunks == v.chunks
    ensures !v.isProcessing && !v.isListening && device.Success? && made.Success? ==>
      && r.effects == [RequestMicrophone, StartRecorder(made.value)]
      && r.after.stream == Some(device.value) && r.after.recorder == Some(made.value) && r.after.chunks == []
      && (startError.Some? ==> r.after.errorMessage == Some(OrElse(startError.value, MicrophoneDenied)))
    // stopping
    ensures !v.isProcessing && v.isListening ==>
      && !r.after.isListening
      && r.effects == (if v.recorder.Some? then [StopRecorder(v.recorder.value)] else [])
      && r.after.errorMessage == (if v.recorder.Some? && stopError.Some?
                                  then Some(OrElse(stopError.value, StopFailed)) else v.errorMessage)
      && r.after.(isListening := true, errorMessage := v.errorMessage) == v
  {
    if v.isProcessing then Transition(v, [])
    else if !v.isListening then
      var tried := StartRecording(ClearedForQuery(v, "").(pipelineStatus := Some(RecordingStatus)),
                                  device, made, startError);
      var caught := Catch(tried.after, tried.thrown, MicrophoneDenied);
      Transition(if tried.thrown.Some? then caught.(isListening := false) else caught, tried.effects)
    else
      var s := v.(isListening := false);
      match v.recorder
      case None => Transition(s, [])
      case Some(rec) =>
        var tried := Attempt(s, [StopRecorder(rec)], stopError);
        Transition(Catch(tried.after, tried.thrown, StopFailed), tried.effects)
  }

  /** The recorder's `ondataavailable` with the event's data: only a
      non-empty chunk is appended, and nothing else changes. */
  function DataAvailable(v: PageState, data: Option<Chunk>): (r: PageState)
    ensures data.Some? && |data.value.bytes| > 0 ==> r.chunks == v.chunks + [data.value]
    ensures data.None? || |data.value.bytes| == 0 ==> r == v
    ensures r.(chunks := v.chunks) == v
  {
    if data.Some? && |data.value.bytes| > 0 then v.(chunks := v.chunks + [data.value]) else v
  }

  /** The transcript in a speech-to-text body: its string `question_text`,
      else the empty string. */
  function Transcript(body: Json): (q: string)
    ensures Member(Some(body), "question_text") == Some(JString(q))
      || (q == "" && StringMember(Some(body), "question_text").None?)
  {
    match StringMember(Some(body), "question_text")
    case Some(q) => q
    case None => ""
  }

  /** The `finally` of `onstop`: not processing, no status, and every ref
      released. */
  function Released(v: PageState): (r: PageState)
    ensures !r.isProcessing && r.pipelineStatus == None
    ensures r.stream == None && r.recorder == None && r.chunks == []
    ensures SameDisplay(r, v) && r.errorMessage == v.errorMessage && r.isListening == v.isListening
  {
    v.(isProcessing := false, pipelineStatus := None, stream := None, recorder := None, chunks := [])
  }

  /** Stopping the tracks of the stream the ref holds, if any. */
  function StopStream(stream: Option<StreamId>): seq<Effect>
  {
    if stream.Some? then [StopTracks(stream.value)] else []
  }

  /** How a `try` block ended: the state and the calls so far, and the
      message of the error it threw, if it threw. */
  datatype Attempt = Attempt(after: PageState, effects: seq<Effect>, thrown: Option<string>)

  /** A `catch (e) { setErrorMessage(e?.message || fallback) }` clause. */
  function Catch(v: PageState, thrown: Option<string>, fallback: string): (r: PageState)
    ensures thrown.None? ==> r == v
    ensures thrown.Some? && thrown.value != "" ==> r.errorMessage == thrown
    ensures thrown.Some? && thrown.value == "" ==> r.errorMessage == Some(fallback)
    ensures r.(errorMessage := v.errorMessage) == v
  {
    if thrown.Some? then v.(errorMessage := Some(OrElse(thrown.value, fallback))) else v
  }

  /** The rest of `onstop`'s `try` block once the transcript `q` is
      published: the animation-frame yield, the `Generating answer…` status,
      then the answer request and its response applied. */
  function Answered(published: PageState, base: string, q: string, reply: Result<Json, string>): (r: Attempt)
    ensures r.effects == [Paint(published), Send(AnswerRequest(base, q))]
    ensures r.after.stream == published.stream && r.after.isProcessing == published.isProcessing
    ensures r.after.errorMessage == published.errorMessage
    ensures SameSession(r.after, published) && r.after.pipelineStatus == Some(GeneratingStatus)
    ensures reply.Failure? ==> r.thrown == Some(reply.error) && SameDisplay(r.after, published)
    ensures reply.Success? ==> r.thrown == None && Shows(r.after, Normalise(reply.value), published.operatorMessage)
  {
    var answering := published.(pipelineStatus := Some(GeneratingStatus));
    var effects := [Paint(published), Send(AnswerRequest(base, q))];
    match reply
    case Success(data) => Attempt(ApplyResponse(answering, data), effects, None)
    case Failure(m) => Attempt(answering, effects, Some(m))
  }

  /** `onstop`'s `try` block after transcription returned `body`: the
      transcript is shown, and asked only when it is non-empty. */
  function Transcribed(busy: PageState, base: string, body: Json, reply: Result<Json, string>): (r: Attempt)
    ensures SameSession(r.after, busy) && r.after.isProcessing == busy.isProcessing
    ensures r.after.pipelineStatus == if Transcript(body) == "" then busy.pipelineStatus else Some(GeneratingStatus)
    ensures r.after.errorMessage == busy.errorMessage
    ensures r.thrown.Some? ==> SameAnswer(r.after, busy)
    ensures Transcript(body) == "" ==>
      && r.effects == [] && r.thrown == Some(EmptyTranscriptMessage)
      && r.after.recognizedQuestion == None && r.after.operatorMessage == EmptyTranscriptMessage
    ensures Transcript(body) != "" ==>
      var q := Transcript(body);
      && r.effects == [Paint(busy.(operatorMessage := q, recognizedQuestion := Some(q))),
                       Send(AnswerRequest(base, q))]
      && (reply.Failure? ==>
            r.thrown == Some(reply.error) && r.after.recognizedQuestion == Some(q) && r.after.operatorMessage == q)
      && (reply.Success? ==> r.thrown == None && Shows(r.after, Normalise(reply.value), q))
  {
    var q := Transcript(body);
    var published := busy.(operatorMessage := OrElse(q, EmptyTranscriptMessage),
                           recognizedQuestion := if q == "" then None else Some(q));
    if q == "" then Attempt(published, [], Some(EmptyTranscriptMessage))
    else Answered(published, base, q, reply)
  }

  /** `onstop`'s `try` block after the transcription request, whose outcome
      is `stt`: a failed transcription throws its message having changed
      nothing; an empty transcript is shown as such and throws; a non-empty
      one is published as the question and then asked. */
  function Transcription(busy: PageState, base: string, stt: Result<Json, string>,
                         reply: Result<Json, string>): (r: Attempt)
    ensures stt.Failure? ==> r == Attempt(busy, [], Some(stt.error))
    ensures SameSession(r.after, busy) && r.after.isProcessing == busy.isProcessing
    ensures stt.Success? && Transcript(stt.value) == "" ==> r.after.pipelineStatus == busy.pipelineStatus
    ensures stt.Success? && Transcript(stt.value) != "" ==> r.after.pipelineStatus == Some(GeneratingStatus)
    ensures r.after.errorMessage == busy.errorMessage
    ensures r.thrown.Some? ==> SameAnswer(r.after, busy)
    ensures stt.Success? && Transcript(stt.value) == "" ==>
      && r.effects == [] && r.thrown == Some(EmptyTranscriptMessage)
      && r.after.recognizedQuestion == None && r.after.operatorMessage == EmptyTranscriptMessage
    ensures stt.Success? && Transcript(stt.value) != "" ==>
      var q := Transcript(stt.value);
      && r.effects == [Paint(busy.(operatorMessage := q, recognizedQuestion := Some(q))),
                       Send(AnswerRequest(base, q))]
      && (reply.Failure? ==>
            r.thrown == Some(reply.error) && r.after.recognizedQuestion == Some(q) && r.after.operatorMessage == q)
      && (reply.Success? ==> r.thrown == None && Shows(r.after, Normalise(reply.value), q))
  {
    match stt
    case Failure(m) => Attempt(busy, [], Some(m))
    case Success(body) => Transcribed(busy, base, body, reply)
  }

  /** `onstop`'s `finally` clause: not processing, no status, the stream's
      tracks stopped, and every ref released. */
  function Finally(v: PageState): (r: Transition)
    ensures !r.after.isProcessing && r.after.pipelineStatus == None
    ensures r.after.stream == None && r.after.recorder == None && r.after.chunks == []
    ensures r.effects == StopStream(v.stream)
    ensures SameDisplay(r.after, v) && r.after.errorMessage == v.errorMessage && r.after.isListening == v.isListening
  {
    Transition(Released(v), StopStream(v.stream))
  }

  /** The recorder's `onstop`, with the recorder's MIME type and the
      outcomes of transcription (`stt`) and of the answer request (`reply`),
      the latter used only when the transcript is non-empty. The `finally`
      clause holds on every path, transcription of exactly the recorded
      chunks is the first call, and the tracks are stopped last. */
  function RecorderStop(v: PageState, base: string, recorderType: string,
                        stt: Result<Json, string>, reply: Result<Json, string>): (r: Transition)
    ensures !r.after.isProcessing && r.after.pipelineStatus == None
    ensures r.after.stream == None && r.after.recorder == None && r.after.chunks == []
    ensures r.after.isListening == v.isListening
    ensures |r.effects| >= 1 && r.effects[0] == Send(SttRequest(base, RecordedBlob(v.chunks, recorderType)))
    ensures v.stream.Some? ==> r.effects[|r.effects| - 1] == StopTracks(v.stream.value)
  {
    var busy := v.(isProcessing := true, pipelineStatus := Some(TranscribingStatus));
    var transcribe := Send(SttRequest(base, RecordedBlob(v.chunks, recorderType)));
    var tried := Transcription(busy, base, stt, reply);
    var done := Finally(Catch(tried.after, tried.thrown, AudioRequestFailed));
    Transition(done.after, [transcribe] + tried.effects + done.effects)
  }

  /** When transcription fails, its message (or the fallback) is shown, the
      answer fields are left as they were, and the only other call is the
      track stop. */
  lemma {:induction false} TranscriptionFails(v: PageState, base: string, recorderType: string,
                                              message: string, reply: Result<Json, string>)
    ensures var r := RecorderStop(v, base, recorderType, Failure(message), reply);
      && r.effects == [Send(SttRequest(base, RecordedBlob(v.chunks, recorderType)))] + StopStream(v.stream)
      && r.after.errorMessage == Some(OrElse(message, AudioRequestFailed))
      && SameDisplay(r.after, v)
  {
    var busy := v.(isProcessing := true, pipelineStatus := Some(TranscribingStatus));
    assert Transcription(busy, base, Failure(message), reply) == Attempt(busy, [], Some(message));
  }

  /** An empty transcript is reported as the error "STT returned empty
      text.", no question is shown, and no answer is requested. */
  lemma {:induction false} EmptyTranscriptIsNotAsked(v: PageState, base: string, recorderType: string,
                                                     body: Json, reply: Result<Json, string>)
    requires Transcript(body) == ""
    ensures var r := RecorderStop(v, base, recorderType, Success(body), reply);
      && r.effects == [Send(SttRequest(base, RecordedBlob(v.chunks, recorderType)))] + StopStream(v.stream)
      && NoAnswerRequest(r.effects)
      && r.after.errorMessage == Some(EmptyTranscriptMessage)
      && r.after.recognizedQuestion == None && r.after.operatorMessage == EmptyTranscriptMessage
      && SameAnswer(r.after, v)
  {
    var busy := v.(isProcessing := true, pipelineStatus := Some(TranscribingStatus));
    var tried := Transcription(busy, base, Success(body), reply);
    assert tried.effects == [] && tried.thrown == Some(EmptyTranscriptMessage);
  }

  /** A non-empty transcript is published as the question, and only then
      asked; on
      failure the question stays on screen with the error, on success the
      answer is shown with the error still cleared. */
  lemma {:induction false} TranscriptIsShownThenAsked(v: PageState, base: string, recorderType: string,
                                                      body: Json, reply: Result<Json, string>)
    requires Transcript(body) != ""
    ensures var r := RecorderStop(v, base, recorderType, Success(body), reply);
      var q := Transcript(body);
      && |r.effects| == 3 + |StopStream(v.stream)|
      && r.effects[1].Paint? && r.effects[1].shown.recognizedQuestion == Some(q)
      && r.effects[1].shown.operatorMessage == q && r.effects[1].shown.isProcessing
      && r.effects[2] == Send(AnswerRequest(base, q))
      && (reply.Failure? ==>
            r.after.errorMessage == Some(OrElse(reply.error, AudioRequestFailed)) &&
            r.after.recognizedQuestion == Some(q) && r.after.operatorMessage == q && SameAnswer(r.after, v))
      && (reply.Success? ==>
            r.after.errorMessage == v.errorMessage && Shows(r.after, Normalise(reply.value), q))
  {
    var busy := v.(isProcessing := true, pipelineStatus := Some(TranscribingStatus));
    var tried := Transcription(busy, base, Success(body), reply);
    assert |tried.effects| == 2;
  }

  /** Without a stream in the ref, `onstop` stops no tracks. */
  lemma {:induction false} NoStreamNoTrackStop(v: PageState, base: string, recorderType: string,
                                               stt: Result<Json, string>, reply: Result<Json, string>)
    requires v.stream.None?
    ensures NoTrackStop(RecorderStop(v, base, recorderType, stt, reply).effects)
  {
    var busy := v.(isProcessing := true, pipelineStatus := Some(TranscribingStatus));
    var tried := Transcription(busy, base, stt, reply);
    assert NoTrackStop(tried.effects);
  }

  /** The typed path asks at most one question: exactly the trimmed input,
      which is non-empty and neither starts nor ends with whitespace. */
  lemma {:induction false} TypedQuestionIsTrimmed(v: PageState, base: string, typed: string,
                                                  reply: Result<Json, string>)
    ensures var effects := TypedSend(v, base, typed, reply).effects;
      var q := Trim(typed);
      || effects == []
      || (&& effects == [Send(AnswerRequest(base, q))] && q != ""
          && !IsWhitespace(q[0]) && !IsWhitespace(q[|q| - 1]))
  {
    TrimmedEnds(typed);
  }

  /** Every answer request among `effects` asks `q`. */
  predicate AsksOnly(effects: seq<Effect>, q: string)
  {
    forall i :: 0 <= i < |effects| && IsAnswerRequest(effects[i]) ==> effects[i].request.text == q
  }

  /** The voice path only ever asks the non-empty transcript: a failed
      transcription or an empty transcript asks nothing. */
  lemma {:induction false} VoiceQuestionIsTranscript(v: PageState, base: string, recorderType: string,
                                                     stt: Result<Json, string>, reply: Result<Json, string>)
    ensures var effects := RecorderStop(v, base, recorderType, stt, reply).effects;
      if stt.Success? && Transcript(stt.value) != "" then AsksOnly(effects, Transcript(stt.value))
      else NoAnswerRequest(effects)
  {
    var r := RecorderStop(v, base, recorderType, stt, reply);
    var transcribe := Send(SttRequest(base, RecordedBlob(v.chunks, recorderType)));
    match stt
    case Failure(m) =>
      TranscriptionFails(v, base, recorderType, m, reply);
      assert r.effects == [transcribe] + StopStream(v.stream);
    case Success(body) =>
      if Transcript(body) == "" {
        EmptyTranscriptIsNotAsked(v, base, recorderType, body, reply);
      } else {
        TranscriptIsShownThenAsked(v, base, recorderType, body, reply);
        var q := Transcript(body);
        assert r.effects == [transcribe, r.effects[1], r.effects[2]] + StopStream(v.stream);
        forall i | 0 <= i < |r.effects| && IsAnswerRequest(r.effects[i])
          ensures r.effects[i].request.text == q
        {
          assert i == 2;
        }
      }
  }

  /** A recorder that cannot be built leaves the acquired stream in the ref
      with its tracks running; the next successful start replaces the ref,
      and no call ever stops the first stream's tracks. */
  lemma {:induction false} FailedRecorderLeaksStream(v: PageState, first: StreamId, second: StreamId,
                                                     message: string, recorder: RecorderId)
    requires !v.isProcessing && !v.isListening
    ensures
      var failed := MicClick(v, Success(first), Failure(message), None, None);
      var retried := MicClick(failed.after, Success(second), Success(recorder), None, None);
      && failed.after.stream == Some(first) && !failed.after.isListening
      && retried.after.stream == Some(second) && retried.after.isListening
      && NoTrackStop(failed.effects + retried.effects)
  {
    var failed := MicClick(v, Success(first), Failure(message), None, None);
    assert failed.effects == [RequestMicrophone];
    var retried := MicClick(failed.after, Success(second), Success(recorder), None, None);
    assert retried.effects == [RequestMicrophone, StartRecorder(recorder)];
    assert failed.effects + retried.effects == [RequestMicrophone, RequestMicrophone, StartRecorder(recorder)];
  }

  /** While a query is in progress neither session start does anything. */
  lemma BusyRejectsNewSessions(v: PageState, base: string, typed: string, reply: Result<Json, string>,
                               device: Result<StreamId, string>, made: Result<RecorderId, string>,
                               startError: Option<string>, stopError: Option<string>)
    requires v.isProcessing
    ensures TypedSend(v, base, typed, reply) == Transition(v, [])
    ensures MicClick(v, device, made, startError, stopError) == Transition(v, [])
  {
  }

  /** Denied microphone access: the error is shown, the page does not listen,
      and the backend is never called. */
  lemma PermissionDenied(v: PageState, message: string, made: Result<RecorderId, string>,
                         startError: Option<string>, stopError: Option<string>)
    requires !v.isProcessing && !v.isListening
    ensures var r := MicClick(v, Failure(message), made, startError, stopError);
      && !r.after.isListening && NoRequest(r.effects)
      && r.after.errorMessage == Some(if message == "" then MicrophoneDenied else message)
  {
  }

  /** A whitespace-only transcript is not treated as empty: it is asked. */
  lemma BlankTranscriptIsAsked(v: PageState, base: string, recorderType: string, reply: Result<Json, string>)
    ensures
      var r := RecorderStop(v, base, recorderType, Success(JObject(map["question_text" := JString(" ")])), reply);
      r.effects[2] == Send(AnswerRequest(base, " "))
  {
    var body := JObject(map["question_text" := JString(" ")]);
    assert Transcript(body) == " ";
    TranscriptIsShownThenAsked(v, base, recorderType, body, reply);
  }

  /** A failing answer request whose body is `{"detail": "llm timeout"}`
      after the transcript "Status?" shows exactly "llm timeout" and keeps
      the question on screen. */
  lemma AnswerFailureKeepsQuestion(v: PageState, base: string, recorderType: string,
                                   text: Result<string, string>, stringify: Json -> string)
    ensures
      var failed := Received(false, Success(JObject(map["detail" := JString("llm timeout")])), text);
      var r := RecorderStop(v, base, recorderType, Success(JObject(map["question_text" := JString("Status?")])),
                            CallOutcome(failed, stringify));
      r.after.errorMessage == Some("llm timeout") && r.after.recognizedQuestion == Some("Status?")
  {
    var failed := Received(false, Success(JObject(map["detail" := JString("llm timeout")])), text);
    DetailIsReportedVerbatim("llm timeout", text, stringify);
    assert CallOutcome(failed, stringify) == Failure("llm timeout");
    var body := JObject(map["question_text" := JString("Status?")]);
    assert Transcript(body) == "Status?";
    TranscriptIsShownThenAsked(v, base, recorderType, body, CallOutcome(failed, stringify));
  }

  /** A full voice session from the first render: start, one recorded
      chunk `c`, stop, then the recorder's stop event with a transcript and
      an answer. The upload carries exactly `c`. The calls are
      issued in the order microphone, recorder start, recorder stop,
      transcription, frame yield, answer, track stop, and the page ends idle with
      the question and the answer shown and the microphone released. */
  lemma {:induction false} VoiceHappyPath(stream: StreamId, recorder: RecorderId, base: string,
                                          recorderType: string, c: Chunk)
    requires |c.bytes| > 0
    ensures
      var started := MicClick(Initial(), Success(stream), Success(recorder), None, None);
      var recorded := DataAvailable(started.after, Some(c));
      var stopped := MicClick(recorded, Success(stream), Success(recorder), None, None);
      var done := RecorderStop(stopped.after, base, recorderType,
                               Success(JObject(map["question_text" := JString("What is the temperature?")])),
                               Success(JObject(map["answer_text" := JString("72\U{B0}F"),
                                                   "question_text" := JString("What is the temperature?")])));
      && started.effects == [RequestMicrophone, StartRecorder(recorder)]
      && stopped.effects == [StopRecorder(recorder)]
      && |done.effects| == 4
      && done.effects[0] == Send(SttRequest(base, RecordedBlob([c], recorderType)))
      && done.effects[1].Paint?
      && done.effects[2] == Send(AnswerRequest(base, "What is the temperature?"))
      && done.effects[3] == StopTracks(stream)
      && !done.after.isListening && !done.after.isProcessing && done.after.errorMessage == None
      && done.after.recognizedQuestion == Some("What is the temperature?")
      && done.after.operatorMessage == "What is the temperature?"
      && done.after.aiResponse == "72\U{B0}F"
      && done.after.visualizationSrc == None && done.after.audioSrc == None
      && done.after.stream == None
  {
    var started := MicClick(Initial(), Success(stream), Success(recorder), None, None);
    assert started.after.isListening && started.after.errorMessage == None;
    var recorded := DataAvailable(started.after, Some(c));
    assert recorded == started.after.(chunks := [c]);
    var stopped := MicClick(recorded, Success(stream), Success(recorder), None, None);
    assert stopped.after == recorded.(isListening := false);
    assert stopped.after.stream == Some(stream) && stopped.after.chunks == [c];
    var q := "What is the temperature?";
    var stt := JObject(map["question_text" := JString(q)]);
    assert Transcript(stt) == q;
    var answer := JObject(map["answer_text" := JString("72\U{B0}F"), "question_text" := JString(q)]);
    AnswerExample(answer, q);
    TranscriptIsShownThenAsked(stopped.after, base, recorderType, stt, Success(answer));
  }

  /** The normalised answer body of the voice session above. */
  lemma AnswerExample(answer: Json, q: string)
    requires q == "What is the temperature?"
    requires answer == JObject(map["answer_text" := JString("72\U{B0}F"), "question_text" := JString(q)])
    ensures Normalise(answer) == Normalised("72\U{B0}F", Some(q), Some(q), None, None)
  {
    assert q[0] == 'W' && q[|q| - 1] == '?';
    TrimOfTrimmed(q);
    assert Member(Some(answer), "visualization") == None;
    assert Member(Some(answer), "audio") == None;
    assert Member(Some(answer), "question_text") == Some(JString(q));
    assert Member(Some(answer), "answer_text") == Some(JString("72\U{B0}F"));
    var n := Normalise(answer);
    assert n.answerText == "72\U{B0}F";
    assert n.questionText == Some(q);
    assert n.operatorMessage == Some(q);
  }
}

=== FILE: page.dfy ===
/** The page component itself: its state variables and refs as one field
    that the handlers update one setter at a time, and its event handlers
    as methods, each proved to end in the state and to issue the calls the
    corresponding `Orchestrator` function describes. A ghost log records the
    calls made to the browser and the backend, in order. */
module Page {
  import opened Wrappers
  import opened Js
  import opened Backend
  import opened Normaliser
  import opened Orchestrator
  import BaseUrl

  /** The log grows by `a`, then `b`, then `c`: it grew by `a + b + c`. */
  lemma AppendAssociates<T>(s: seq<T>, a: seq<T>, b: seq<T>, c: seq<T>)
    ensures s + a + b + c == s + (a + b + c)
  {
  }

  class VoiceAssistant {
    const baseUrl: string

    /** The React state variables and the stream, recorder and chunk refs. */
    var state: PageState

    /** Every call issued so far, oldest first. */
    ghost var effects: seq<Effect>

    /** Every recorded chunk is non-empty, and a recorder is only ever held
        together with the stream it records. */
    ghost predicate Valid()
      reads this
    {
      && (forall i :: 0 <= i < |state.chunks| ==> |state.chunks[i].bytes| > 0)
      && (state.recorder.Some? ==> state.stream.Some?)
    }

    /** The first render, with the configured backend URL (or none). */
    constructor (configuredUrl: Option<string>)
      ensures Valid()
      ensures baseUrl == BaseUrl.BackendBaseUrl(configuredUrl)
      ensures state == Initial() && effects == []
    {
      baseUrl := BaseUrl.BackendBaseUrl(configuredUrl);
      state := Initial();
      effects := [];
    }

    /** `applyBackendResponse`. */
    method ApplyBackendResponse(data: Json)
      modifies this
      ensures state == ApplyResponse(old(state), data)
      ensures effects == old(effects)
    {
      var n := Normalise(data);
      state := state.(aiResponse := n.answerText);
      state := state.(recognizedQuestion := n.questionText);
      if n.operatorMessage.Some? {
        state := state.(operatorMessage := n.operatorMessage.value);
      }
      state := state.(visualizationSrc := n.visualizationSrc);
      state := state.(audioSrc := n.audioSrc);
    }

    /** The resets both session starts make before their first await. */
    method ClearForQuery(operatorMessage: string)
      modifies this
      ensures state == ClearedForQuery(old(state), operatorMessage)
      ensures effects == old(effects)
    {
      state := state.(errorMessage := None);
      state := state.(operatorMessage := operatorMessage);
      state := state.(recognizedQuestion := None);
      state := state.(aiResponse := "");
      state := state.(visualizationSrc := None);
      state := state.(audioSrc := None);
    }

    /** A `catch` clause that shows the thrown message, or `fallback` when
        it is empty. */
    method CatchError(thrown: Option<string>, fallback: string)
      modifies this
      ensures state == Catch(old(state), thrown, fallback)
      ensures effects == old(effects)
    {
      if thrown.Some? {
        state := state.(errorMessage := Some(OrElse(thrown.value, fallback)));
      }
    }

    /** `handleSendTypedQuestion`, with the text in the input box and the
        outcome of the answer request. */
    method SendTypedQuestion(typed: string, reply: Result<Json, string>)
      requires Valid()
      modifies this
      ensures Valid()
      ensures state == TypedSend(old(state), baseUrl, typed, reply).after
      ensures effects == old(effects) + TypedSend(old(state), baseUrl, typed, reply).effects
    {
      var q := Trim(typed);
      if q == "" || state.isProcessing {
        return;
      }
      ClearForQuery(q);
      state := state.(isProcessing := true);
      state := state.(pipelineStatus := Some(GeneratingStatus));

      // try
      var thrown: Option<string> := None;
      effects := effects + [Send(AnswerRequest(baseUrl, q))];
      match reply {
        case Success(data) =>
          ApplyBackendResponse(data);
        case Failure(message) =>
          thrown := Some(message);
      }
      CatchError(thrown, RequestFailed);
      // finally
      state := state.(isProcessing := false);
      state := state.(pipelineStatus := None);
    }

    /** The `try` block of a recording start, returning what it threw. */
    method TryStartRecording(device: Result<StreamId, string>, made: Result<RecorderId, string>,
                         startError: Option<string>) returns (thrown: Option<string>)
      requires Valid() && !state.isListening
      modifies this
      ensures Valid()
      ensures var t := StartRecording(old(state), device, made, startError);
        state == t.after && effects == old(effects) + t.effects && thrown == t.thrown
    {
      effects := effects + [RequestMicrophone];
      match device {
        case Failure(m) =>
          return Some(m);
        case Success(stream) =>
          state := state.(stream := Some(stream));
          match made {
            case Failure(m) =>
              return Some(m);
            case Success(recorder) =>
              state := state.(chunks := []);
              state := state.(recorder := Some(recorder));
              effects := effects + [StartRecorder(recorder)];
              if startError.Some? {
                return startError;
              }
              state := state.(isListening := true);
              return None;
          }
      }
    }

    /** `handleMicClick`, with the outcomes of `getUserMedia`, of the
        recorder's construction, of `recorder.start()` and of
        `recorder.stop()`. */
    method ClickMic(device: Result<StreamId, string>, made: Result<RecorderId, string>,
                    startError: Option<string>, stopError: Option<string>)
      requires Valid()
      modifies this
      ensures Valid()
      ensures state == MicClick(old(state), device, made, startError, stopError).after
      ensures effects == old(effects) + MicClick(old(state), device, made, startError, stopError).effects
    {
      if state.isProcessing {
        return;
      }
      if !state.isListening {
        ClearForQuery("");
        state := state.(pipelineStatus := Some(RecordingStatus));
        var thrown := TryStartRecording(device, made, startError);
        if thrown.Some? {
          CatchError(thrown, MicrophoneDenied);
          state := state.(isListening := false);
        }
      } else {
        state := state.(isListening := false);
        if state.recorder.Some? {
          effects := effects + [StopRecorder(state.recorder.value)];
          CatchError(stopError, StopFailed);
        }
      }
    }

    /** The recorder's `ondataavailable`, with the event's data if any. */
    method OnDataAvailable(data: Option<Chunk>)
      requires Valid()
      modifies this
      ensures Valid()
      ensures state == DataAvailable(old(state), data)
      ensures effects == old(effects)
    {
      if data.Some? && |data.value.bytes| > 0 {
        state := state.(chunks := state.chunks + [data.value]);
      }
    }

    /** The end of `onstop`'s `try` block: the animation-frame yield with
        the transcript `q` published, then the answer request. */
    method AskTranscript(q: string, reply: Result<Json, string>) returns (thrown: Option<string>)
      modifies this
      ensures var t := Answered(old(state), baseUrl, q, reply);
        state == t.after && effects == old(effects) + t.effects && thrown == t.thrown
    {
      effects := effects + [Paint(state)];
      state := state.(pipelineStatus := Some(GeneratingStatus));
      effects := effects + [Send(AnswerRequest(baseUrl, q))];
      match reply {
        case Success(data) =>
          ApplyBackendResponse(data);
          return None;
        case Failure(m) =>
          return Some(m);
      }
    }

    /** `onstop`'s `try` block once transcription returned `body`. */
    method HandleTranscript(body: Json, reply: Result<Json, string>) returns (thrown: Option<string>)
      modifies this
      ensures var t := Transcribed(old(state), baseUrl, body, reply);
        state == t.after && effects == old(effects) + t.effects && thrown == t.thrown
    {
      var q := Transcript(body);
      state := state.(operatorMessage := OrElse(q, EmptyTranscriptMessage));
      state := state.(recognizedQuestion := if q == "" then None else Some(q));
      if q == "" {
        return Some(EmptyTranscriptMessage);
      }
      thrown := AskTranscript(q, reply);
    }

    /** `onstop`'s `try` block after the transcription request. */
    method TryTranscription(stt: Result<Json, string>, reply: Result<Json, string>) returns (thrown: Option<string>)
      modifies this
      ensures var t := Transcription(old(state), baseUrl, stt, reply);
        state == t.after && effects == old(effects) + t.effects && thrown == t.thrown
    {
      match stt {
        case Failure(m) =>
          thrown := Some(m);
        case Success(body) =>
          thrown := HandleTranscript(body, reply);
      }
    }

    /** `onstop`'s `finally` clause. */
    method ReleaseMicrophone()
      modifies this
      ensures Valid()
      ensures state == Finally(old(state)).after
      ensures effects == old(effects) + Finally(old(state)).effects
    {
      state := state.(isProcessing := false);
      state := state.(pipelineStatus := None);
      if state.stream.Some? {
        effects := effects + [StopTracks(state.stream.value)];
      }
      state := state.(stream := None);
      state := state.(recorder := None);
      state := state.(chunks := []);
    }

    /** The recorder's `onstop`, with the recorder's MIME type and the
        outcomes of transcription and of the answer request. */
    method OnRecorderStop(recorderType: string, stt: Result<Json, string>, reply: Result<Json, string>)
      requires Valid()
      modifies this
      ensures Valid()
      ensures state == RecorderStop(old(state), baseUrl, recorderType, stt, reply).after
      ensures effects == old(effects) + RecorderStop(old(state), baseUrl, recorderType, stt, reply).effects
      ensures old(state).recorder.Some? ==> |effects| > 0 && effects[|effects| - 1].StopTracks?
    {
      ghost var before := effects;
      state := state.(isProcessing := true);
      state := state.(pipelineStatus := Some(TranscribingStatus));
      var blob := RecordedBlob(state.chunks, recorderType);
      effects := effects + [Send(SttRequest(baseUrl, blob))];
      ghost var requested := effects;
      var thrown := TryTranscription(stt, reply);
      ghost var tried := effects;
      CatchError(thrown, AudioRequestFailed);
      ReleaseMicrophone();
      AppendAssociates(before, requested[|before|..], tried[|requested|..], effects[|tried|..]);
    }
  }
}

=== FILE: wrappers.dfy ===
/** Optional values and success/failure outcomes, used for JavaScript's
    `null`/`undefined` and for the outcome of an awaited call (its value,
    or the message of the error it threw). */
module Wrappers {

  datatype Option<+T> = None | Some(value: T)

  datatype Result<+T, +E> = Success(value: T) | Failure(error: E)
}
